=== FILE: README.md ===
# pingthing core, modelled in Dafny

pingthing is a macOS menu-bar ping monitor. Underneath its AppKit user interface sits a small amount of deterministic logic, and this project models that logic and proves properties of it:

- **Response graph** (`History`, history.dfy). This is `PingResponseGraphView`: a bounded first-in-first-out history of round-trip times in seconds. It covers append with front eviction, the `historySize` setter that clamps and truncates, the mean (`averagePing`), and the geometry of the stacked green/yellow/red bars drawn for each entry.
- **Network monitor** (`NetworkMonitor`, monitor.dfy). This is the path-update handler of `PingMenuNetworkMonitor`. It refreshes the published status on every update, but posts a change notification only when reachability differs from the value it remembers. It also picks the connection type by priority.
- **Pinger supervisor** (`Supervisor`, supervisor.dfy). This is the `AppDelegate` state machine: the current pinger, the single pending set-up retry, the status item with its graph, and the menu title. It is driven by a sequential trace of events: launch, path updates, saved preferences, retry timers and probe results. Whether SwiftyPing creates and starts a pinger is an input of each event.
- **Debug log** (`DebugLog`, logger.dfy). This is `DebugLogger` and `PTdebugPrint`: an append-only message list, read back newline-joined.
- **Preferences** (`Preferences`, preferences.dfy; `Settings`, settings.dfy). These are `loadPreferences`, `saveClicked` and `cancelClicked` over the user-defaults store. The store is a map from key to stored object, read with Swift's conditional casts and a default on any miss.
- **Constants** (`Constants`, constants.dfy): the defaults, the three thresholds and the preference field ranges.

Round-trip times, intervals and heights are Dafny `real`s: an idealisation of `Double`/`CGFloat`.

Some behaviours of the code that are easy to misread:

- The yellow band ends at the medium threshold itself (100 ms), not at fast + medium. The yellow part therefore grows only to 60% of the height and then jumps to full (`History.YellowSkipsTopOfBand`).
- Timeouts are appended to the history as the timeout value in seconds, so they count in the mean.
- The `historySize` setter clamps only to at least 1, not to the 16–64 range the settings field allows. The initialiser does not clamp at all.
- A start failure schedules no retry and leaves the created pinger assigned.
- Losing the network does not cancel a pending retry.
- The monitor starts with `false` remembered, so the first satisfied update posts `true`. For the path sequence reachable, reachable, unreachable, unreachable, reachable, the posted notifications are `true, false, true` (`NetworkMonitor.PostedExample`).
- There is no explicit idle/faulted state. The state is the combination of an optional pinger, the running set, the retry slot, the graph's colour flag and the title.
- `createStatusItem` compares only the product historySize × barWidth with the current item's length. Changing both settings with the same product keeps the old graph (`Supervisor.StatusItemKeptOnSameProduct`).

## Model

| member | source | states |
|---|---|---|
| Constants.ThresholdsOrdered | pingthing/Constants.swift:16-18 | the fast, medium and slow thresholds are positive and strictly increasing |
| Constants.DefaultsInFieldRanges | pingthing/Constants.swift:11-14 | each numeric default lies in the range its preference field's formatter accepts (0.1–60 s, 16–64 entries, 1–4 points) |
| Settings.AsString | pingthing/AppDelegate.swift:196 | `as? String` succeeds exactly on a stored string and gives that string |
| Settings.AsDouble | pingthing/AppDelegate.swift:197-198 | `as? Double` succeeds exactly on a stored number and gives that number |
| Settings.ReadConfig | pingthing/PreferencesWindowController.swift:307-311 | target, interval and timeout are the stored string or number when the key holds one, else their defaults; history size and bar width are the stored number when it is an integer, else their defaults |
| Settings.AsInt | pingthing/AppDelegate.swift:79-80 | `as? Int` succeeds exactly on a stored number that is an integer, and then gives that integer |
| Settings.Read | pingthing/AppDelegate.swift:196-198 | a setting is the stored object when the key exists and the cast succeeds, and the default when the key is missing or the object has the wrong kind |
| Settings.EmptyStoreReadsDefaults | pingthing/Constants.swift:10-14 | with nothing stored, every reader sees the five defaults |
| History.NewGraph | pingthing/PingResponseGraphView.swift:28-42 | a new view keeps the given history size and bar width unclamped, has an empty history and so no mean, and draws in colour |
| History.AddPingResponse | pingthing/PingResponseGraphView.swift:55-61 | the new history is the newest min(count+1, historySize) entries of old history plus the response; when historySize ≥ 1 the response is the last entry; size, width and colour are unchanged |
| History.AddAllKeepsNewest | pingthing/PingResponseGraphView.swift:55-61 | after any run of appends, the history is the newest historySize entries of the old history followed by the responses, in arrival order, with the oldest evicted |
| History.AddAllKeepsShape | pingthing/PingResponseGraphView.swift:55-61 | recording any run of responses never changes the history size, the bar width or the colour flag |
| History.AddAllFromEmpty | pingthing/PingResponseGraphView.swift:56-58 | from an empty history, n appends leave exactly the last min(n, historySize) responses in arrival order |
| History.SetHistorySize | pingthing/PingResponseGraphView.swift:9-17 | the new size is the requested one clamped to at least 1, and the history becomes its own most recent suffix of at most that length |
| History.AveragePing | pingthing/PingResponseGraphView.swift:20-23 | the mean is absent exactly when the history is empty; otherwise mean × count equals the sum of all retained entries |
| History.AverageWithinBounds | pingthing/PingResponseGraphView.swift:20-23 | the mean of a non-empty history lies within any bounds that hold for every entry |
| History.AverageOfConstant | pingthing/PingResponseGraphView.swift:20-23 | a history of one repeated value, such as a run of timeouts, averages to that value |
| History.AverageExample | pingthing/PingResponseGraphView.swift:20-23 | entries of 10, 20 and 30 ms average to 20 ms; an empty history has no mean |
| History.BarHeights | pingthing/PingResponseGraphView.swift:136-146 | up to 40 ms only green shows, at ms/40 of the height H; between 40 and 100 ms green is full, yellow is (ms-40)/100 of H and red is empty; above 100 ms green and yellow are full and red is (ms-100)/200 of H, capped at H |
| History.BarHeightsBounded | pingthing/PingResponseGraphView.swift:132-146 | for a non-negative round-trip time, the green, yellow and red heights all lie between 0 and the graph height |
| History.BarHeightsMonotone | pingthing/PingResponseGraphView.swift:136-146 | a slower response never draws a shorter green, yellow or red part |
| History.BarBands | pingthing/PingResponseGraphView.swift:136-146 | yellow shows exactly above 40 ms and red exactly above 100 ms; green is full from 40 ms and red is full from 300 ms |
| History.YellowSkipsTopOfBand | pingthing/PingResponseGraphView.swift:140-143 | the yellow part's height is never strictly between 60% and 100% of the graph height, because the band divides by the medium threshold |
| History.BarExamples | pingthing/PingResponseGraphView.swift:136-146 | 30 ms draws green at 75%; 70 ms draws full green and 30% yellow; 350 ms draws all three parts full |
| History.DrawBars | pingthing/PingResponseGraphView.swift:129-131 | there is one bar per history entry, each with the configured width and the heights of its own round-trip time |
| History.BarsRightAligned | pingthing/PingResponseGraphView.swift:129-131 | bars sit side by side, none starts left of 0, all end within historySize × barWidth, and the newest is at (historySize − 1) × barWidth |
| NetworkMonitor.FirstUsed | pingthing/NetworkMonitor.swift:43-44 | the result is absent exactly when no candidate is used; otherwise it is a used candidate with no used candidate before it |
| NetworkMonitor.ConnectionTypeByPriority | pingthing/NetworkMonitor.swift:43-44 | the connection type is cellular if used, else Wi-Fi, else wired Ethernet, else other |
| NetworkMonitor.Update | pingthing/NetworkMonitor.swift:24-44 | a notification is posted exactly when the new reachability differs from the remembered value, and it carries the new value; the published and remembered values both become the new reachability; the cost flags are copied; the connection type is the one chosen by priority |
| NetworkMonitor.AfterReflectsLastUpdate | pingthing/NetworkMonitor.swift:26-38 | after any non-empty run, the published status is that of the last update, whether or not it posted, and equals the remembered value |
| NetworkMonitor.PostedEnds | pingthing/NetworkMonitor.swift:19-35 | over any run, the first notification differs from the value remembered at the start; the last one is the value remembered at the end, or that value is unchanged if nothing was posted |
| NetworkMonitor.PostedAlternates | pingthing/NetworkMonitor.swift:26-27 | over any run, no two consecutive notifications carry the same value |
| NetworkMonitor.FirstUpdate | pingthing/NetworkMonitor.swift:19-26 | from the initial monitor, a first satisfied update posts `true` and a first unsatisfied one posts nothing |
| NetworkMonitor.PostedExample | pingthing/NetworkMonitor.swift:24-35 | reachable, reachable, unreachable, unreachable, reachable posts `true, false, true` |
| DebugLog.Append | pingthing/LogWindowController.swift:14-16 | logging adds exactly one message, at the end, and leaves every earlier message in place |
| DebugLog.DebugPrint | pingthing/LogWindowController.swift:96-103 | the logged line is the timestamp, then ": ", then the message, appended after the unchanged earlier lines |
| DebugLog.LogAllAppends | pingthing/LogWindowController.swift:9-16 | any run of log calls leaves the old messages as a prefix, followed by the new messages in call order |
| DebugLog.LogAllFromEmpty | pingthing/LogWindowController.swift:9-16 | from an empty log, n calls leave exactly those n messages in call order |
| DebugLog.FullLog | pingthing/LogWindowController.swift:28-31 | an empty log reads as ""; splitting the full log at newlines gives back every message in order when no message contains a newline; its length is the total message length plus one separator between each pair of neighbours |
| DebugLog.SplitJoin | pingthing/LogWindowController.swift:30 | splitting the newline-joined messages gives them back in order, when there is at least one and none contains a newline |
| DebugLog.JoinLength | pingthing/LogWindowController.swift:30 | joining with newlines adds one character between each pair of neighbours and nothing else |
| Preferences.LoadPreferences | pingthing/PreferencesWindowController.swift:306-324 | each field shows the stored value, or its default when the key is missing or the object has the wrong kind; the originals equal the fields shown |
| Preferences.SavePostsOnceAfterWrites | pingthing/PreferencesWindowController.swift:326-334 | saving performs five writes to five different keys and then posts the change notification exactly once, last |
| Preferences.SaveClicked | pingthing/PreferencesWindowController.swift:326-331 | the store afterwards is the old one with exactly the five preference keys overwritten: the target (the default when empty) and each number parsed, or its default when it does not parse |
| Preferences.SaveThenRead | pingthing/PreferencesWindowController.swift:326-331 | after saving, readers see the default target for an empty target field and the text verbatim otherwise, and the parsed number or the default for each numeric field, with no clamping; other keys are untouched |
| Preferences.LoadThenSave | pingthing/PreferencesWindowController.swift:306-331 | when the conversions read back the four stored numbers the window shows, opening and saving without edits changes no setting, except that a stored empty target becomes the default target |
| Preferences.LoadThenSaveOnEmptyStore | pingthing/PreferencesWindowController.swift:306-331 | with conversions that show the default numbers as "1", "5", "24" and "2" and parse them back, opening and saving with nothing stored leaves every setting a reader sees as it was |
| Preferences.CancelClicked | pingthing/PreferencesWindowController.swift:336-343 | cancelling restores all five fields to the originals and keeps the originals; it has no access to the store |
| Preferences.EditThenCancel | pingthing/PreferencesWindowController.swift:336-342 | whatever was typed after loading, cancelling returns the window to exactly its loaded state |
| Supervisor.StopPinger | pingthing/AppDelegate.swift:182-189 | the current pinger, if any, is stopped and dropped, the title is the waiting one, and the graph is grey with its history, size and width kept; the status item's length and tooltip, a pending retry and every other part of the state stay as they were |
| Supervisor.ScheduleRetry | pingthing/AppDelegate.swift:261-268 | a fresh retry replaces any pending one, so only one is ever pending; its token is newer than every earlier one, and nothing else in the app state changes |
| Supervisor.CreateStatusItem | pingthing/AppDelegate.swift:78-86 | the item exists afterwards with length historySize × barWidth; an item that already has that length is kept unchanged, and otherwise it is replaced by one with a new empty graph drawn in colour |
| Supervisor.StatusItemKeptOnSameProduct | pingthing/AppDelegate.swift:79-83 | changing 24 × 2 to 48 × 1 keeps the old graph with history size 24 |
| Supervisor.SetupPinger | pingthing/AppDelegate.swift:191-259 | the old retry is cancelled and the old pinger stopped. Network down: no pinger, grey graph, one retry pending. Creation failure: no pinger, error title, one retry pending. Creation success: a fresh pinger with the stored configuration and no retry pending. A start failure leaves that pinger not running, with an error title. A start success makes the graph colour. Afterwards at most the new pinger runs |
| Supervisor.TimeoutResponse | pingthing/AppDelegate.swift:154-163 | the timeout value is appended to the history; only when the current pinger has a resolved address does the title become the timeout title and the tooltip "timeout"; nothing else changes |
| Supervisor.UpdatePingResponse | pingthing/AppDelegate.swift:165-180 | the duration is appended to the history; only when the current pinger has a resolved address does the title show the duration in ms and the tooltip show it with the updated graph's mean in ms, or the app name when the graph holds nothing; nothing else changes |
| Supervisor.HandleResult | pingthing/AppDelegate.swift:225-248 | no result touches the pinger. A timeout appends the timeout value and keeps the pending retry. A reply appends the duration. A lookup or other error appends nothing, sets its error title and schedules a new retry |
| Supervisor.HandleNetworkChange | pingthing/AppDelegate.swift:119-130 | going offline drops the pinger, shows the waiting title and keeps a pending retry; going online with the monitor active ensures the status item and leaves no retry pending exactly when creation succeeded; at most the new pinger runs afterwards |
| Supervisor.Step | pingthing/AppDelegate.swift:225-265 | every event keeps the invariant (only the current pinger can run, a pinger implies a status item, the monitor's remembered value equals its published one, started pingers are recorded with their timeout); a retry whose work item was cancelled or replaced does nothing; a result from a pinger that was never started does nothing; a probe result never changes the pinger, the running set or the stored settings |
| Supervisor.RunPreservesInv | pingthing/AppDelegate.swift:182-259 | over any trace of events, at most one pinger is running, and it is the current one |
| Supervisor.AtMostOneRunning | pingthing/AppDelegate.swift:182-194 | in any state satisfying the invariant, at most one pinger is running |
| Supervisor.NetworkDown | pingthing/AppDelegate.swift:125-129 | losing the network stops and drops the pinger and greys the graph, keeping its history, but leaves a pending retry pending |
| Supervisor.NetworkUp | pingthing/AppDelegate.swift:125-126 | regaining the network runs the full set-up at once, and it ends with no retry pending exactly when creation succeeds |
| Supervisor.UnchangedReachability | pingthing/NetworkMonitor.swift:26-38 | a path update that does not change reachability changes nothing except the monitor's published fields |
| Supervisor.StaleRetryIgnored | pingthing/AppDelegate.swift:261-267 | a retry whose work item was cancelled or replaced does nothing when it fires |
| Supervisor.NetworkUpSupersedesRetry | pingthing/AppDelegate.swift:191-205 | launching offline schedules one retry. If the network comes up before it fires, set-up runs at once, and the earlier retry then does nothing when it fires: one start-up, not two |
| Supervisor.SetupTwice | pingthing/AppDelegate.swift:191-194 | two set-ups in a row leave at most the second pinger running |
| Supervisor.TimeoutRecordsPingerTimeout | pingthing/AppDelegate.swift:198-233 | a timeout delivered by the running pinger appends the timeout that pinger was configured with |
| Supervisor.SetupThenTimeout | pingthing/AppDelegate.swift:196-256 | after a successful set-up, a timeout from the new pinger appends the `PingTimeout` setting read during that set-up |
| Supervisor.TimeoutsKeepSession | pingthing/AppDelegate.swift:225-233 | any run of timeouts from a started pinger keeps the pinger, the running set and the pending retry, and appends that pinger's timeout once per timeout |
| Supervisor.ThreeTimeouts | pingthing/AppDelegate.swift:154-155 | three timeouts in a row from the running pinger leave the session and the graph's size, width and colour as they were, and the history is the newest historySize entries of the old history plus that pinger's timeout three times |

## Left out

- AppKit user interface: window, menu and stack construction, the graph's bitmap compositing (contexts, masks, ring path, colours), `MenuItemLabelView`, the key-equivalent handling of `PasteableTextField`, window placement, and the log window's text view. These are layout, with no state to speak of beyond what is modelled.
- Bar colours: the graph's `pingerActive` flag is modelled, but which colour it selects is not.
- The ICMP transport of SwiftyPing: creation, start and each probe result are inputs (`Supervisor.Attempt`, `Supervisor.PingResult`). Whether the pinger resolved an address is part of the creation input.
- `NWPathMonitor`, `DispatchQueue` scheduling, `NotificationCenter` delivery and main-thread hops: events form one sequential trace. A posted reachability change is handled straight after the path update that caused it.
- Retry timing: the five-second delay is not modelled. When a retry fires is decided by the trace. In the app every lookup or other probe error re-arms the retry (pingthing/AppDelegate.swift:234-241, 261-268), so errors that arrive more often than every five seconds could keep it from ever firing; a trace may still fire it between two such errors.
- Probe results: a result may arrive in any state from any pinger that was started, and a timeout appends the timeout that pinger's observer captured at set-up. This covers results still queued from a pinger that has since been stopped. Which results SwiftyPing delivers and when is decided by the trace.
- Concurrency of the logger's serial queue: logging is modelled as sequential calls. Printing to standard output and the notification to the log window are not modelled.
- Diagnostic lines that the delegate writes through `PTdebugPrint` are not threaded into the supervisor's state. The logger is modelled on its own.
- Floating point: `Double`/`CGFloat` rounding is replaced by exact `real` arithmetic.
- Text formatting: `String(format:)` titles and tooltips appear only as kinds, with the numbers they show. Date formatting and `String(_:)`/`Double(_:)`/`Int(_:)` conversions are abstract.
- User defaults: the store is a map. Stored objects other than strings and numbers collapse into one kind that no cast accepts. Booleans bridged to numbers are not distinguished.
- Supervisor.Record: in the app, recording into a graph created with a negative history size traps in `removeFirst`. The model leaves such a graph unchanged instead.
- Integer overflow of historySize × barWidth is not modelled (Swift would trap).
- The graph's `absoluteWidth` and intrinsic size are not modelled. The `historySize` setter does not recompute them.
- The login helper (`pingthingLoginHelper/*`), launch-at-login registration, user notifications (`Notifications.swift`), notification-permission requests, and the menu actions that open windows.

=== FILE: constants.dfy ===
/** The application-wide constants the core logic depends on
    (pingthing/Constants.swift) and the ranges the preference fields'
    number formatters accept (pingthing/PreferencesWindowController.swift). */
module Constants {

  const AppName: string := "PingThing"

  const DefaultPingTarget: string := "8.8.8.8"
  const DefaultPingInterval: real := 1.0
  const DefaultPingTimeout: real := 5.0
  const DefaultHistorySize: int := 24
  const DefaultBarWidth: int := 2

  /** Round-trip thresholds, in milliseconds, of the green, yellow and red bar segments. */
  const FastMs: real := 40.0
  const MediumMs: real := 100.0
  const SlowMs: real := 200.0

  /** Height, in points, of the menu-bar graph. */
  const GraphHeight: real := 22.0

  /** Bounds of the interval/timeout, history-size and bar-width field formatters. */
  const SecondsFieldMin: real := 0.1
  const SecondsFieldMax: real := 60.0
  const HistoryFieldMin: int := 16
  const HistoryFieldMax: int := 64
  const BarWidthFieldMin: int := 1
  const BarWidthFieldMax: int := 4

  /** The three thresholds are strictly increasing, so the bands are well ordered. */
  lemma ThresholdsOrdered()
    ensures 0.0 < FastMs < MediumMs < SlowMs
  {
  }

  /** Every numeric default is a value its own preference field accepts. */
  lemma DefaultsInFieldRanges()
    ensures SecondsFieldMin <= DefaultPingInterval <= SecondsFieldMax
    ensures SecondsFieldMin <= DefaultPingTimeout <= SecondsFieldMax
    ensures HistoryFieldMin <= DefaultHistorySize <= HistoryFieldMax
    ensures BarWidthFieldMin <= DefaultBarWidth <= BarWidthFieldMax
  {
  }
}

=== FILE: history.dfy ===
/** The response graph behind the menu-bar icon (pingthing/PingResponseGraphView.swift):
    a bounded first-in-first-out history of round-trip times in seconds,
    its mean, and the geometry of the stacked green/yellow/red bars. */
module History {
  import opened Options
  import opened Constants

  /** The view's state: capacity, bar width in points, retained round-trip
      times (oldest first) and whether bars are drawn in colour or grey. */
  datatype Graph = Graph(historySize: int, barWidth: int, history: seq<real>, pingerActive: bool)

  /** A new view. The initialiser stores `historySize` as given: property
      observers do not run during initialisation, so the setter's clamp does
      not apply here. A new view draws in colour. */
  function NewGraph(historySize: int, barWidth: int): (r: Graph)
    ensures r.historySize == historySize && r.barWidth == barWidth
    ensures r.history == [] && AveragePing(r).None?
    ensures r.pingerActive
  {
    Graph(historySize, barWidth, [], true)
  }

  /** The newest `n` entries of `h`, or all of `h` when it is shorter. */
  function Newest(h: seq<real>, n: int): (r: seq<real>)
    requires n >= 0
    ensures |r| == if |h| <= n then |h| else n
    ensures r == h[|h| - |r|..]
  {
    if |h| <= n then h else h[|h| - n..]
  }

  // ---------------------------------------------------------------------------
  // Appending and resizing

  /** Appends one round-trip time and evicts from the front so that at most
      `historySize` entries remain. A negative capacity would make the
      eviction remove more entries than exist, which traps. */
  function AddPingResponse(g: Graph, response: real): (r: Graph)
    requires g.historySize >= 0
    ensures |r.history| == if |g.history| < g.historySize then |g.history| + 1 else g.historySize
    ensures r.history == (g.history + [response])[|g.history| + 1 - |r.history|..]
    ensures g.historySize >= 1 ==> |r.history| >= 1 && r.history[|r.history| - 1] == response
    ensures r.historySize == g.historySize && r.barWidth == g.barWidth && r.pingerActive == g.pingerActive
  {
    var h := g.history + [response];
    if |h| > g.historySize then g.(history := h[|h| - g.historySize..]) else g.(history := h)
  }

  /** The responses appended one after another, in arrival order. */
  function AddAll(g: Graph, responses: seq<real>): Graph
    requires g.historySize >= 0
    decreases |responses|
  {
    if |responses| == 0 then g else AddAll(AddPingResponse(g, responses[0]), responses[1..])
  }

  lemma AddAllKeepsShape(g: Graph, responses: seq<real>)
    requires g.historySize >= 0
    ensures AddAll(g, responses).historySize == g.historySize
    ensures AddAll(g, responses).barWidth == g.barWidth
    ensures AddAll(g, responses).pingerActive == g.pingerActive
    decreases |responses|
  {
    if |responses| > 0 {
      AddAllKeepsShape(AddPingResponse(g, responses[0]), responses[1..]);
    }
  }

  /** Taking the newest `n` of a longer sequence that ends with `x` is the
      same as taking the newest `n` of `x`, once `x` has at least `n` entries. */
  lemma NewestOfSuffix(p: seq<real>, x: seq<real>, n: int)
    requires 0 <= n <= |x|
    ensures Newest(p + x, n) == Newest(x, n)
  {
    var y := p + x;
    assert y[|p|..] == x;
    if |y| > n {
      assert y[|y| - n..] == y[|p|..][|x| - n..];
    }
  }

  /** Evicting to `n` and then appending and evicting again is the same as
      evicting once at the end. */
  lemma NewestAppend(a: seq<real>, b: seq<real>, n: int)
    requires n >= 0
    ensures Newest(Newest(a, n) + b, n) == Newest(a + b, n)
  {
    if |a| > n {
      var c := Newest(a, n);
      var p := a[..|a| - n];
      assert a == p + c;
      assert a + b == p + (c + b);
      NewestOfSuffix(p, c + b, n);
    }
  }

  lemma AddPingResponseIsNewest(g: Graph, response: real)
    requires g.historySize >= 0
    ensures AddPingResponse(g, response).history == Newest(g.history + [response], g.historySize)
    ensures AddPingResponse(g, response).historySize == g.historySize
  {
  }

  /** After any run of appends to a view holding at most `historySize`
      entries, the history is exactly the newest `historySize` of the old
      history followed by the new responses: arrival order is kept and the
      oldest entries are the ones evicted. */
  lemma {:induction false} AddAllKeepsNewest(g: Graph, responses: seq<real>)
    requires g.historySize >= 0
    requires |g.history| <= g.historySize
    ensures AddAll(g, responses).history == Newest(g.history + responses, g.historySize)
    decreases |responses|
  {
    if |responses| == 0 {
      assert g.history + responses == g.history;
    } else {
      var x, rest := responses[0], responses[1..];
      var g1 := AddPingResponse(g, x);
      AddPingResponseIsNewest(g, x);
      AddAllKeepsNewest(g1, rest);
      assert AddAll(g, responses) == AddAll(g1, rest);
      NewestAppend(g.history + [x], rest, g.historySize);
      assert g.history + [x] + rest == g.history + responses;
    }
  }

  /** Starting from an empty history, `n` appends leave the last
      min(n, historySize) responses in arrival order. */
  lemma {:induction false} AddAllFromEmpty(g: Graph, responses: seq<real>)
    requires g.historySize >= 0 && g.history == []
    ensures AddAll(g, responses).history == Newest(responses, g.historySize)
  {
    AddAllKeepsNewest(g, responses);
    assert g.history + responses == responses;
  }

  /** The `historySize` setter: clamps the new size to at least 1, then
      removes the oldest entry while the history is longer than that. */
  method SetHistorySize(g: Graph, newSize: int) returns (r: Graph)
    ensures r.historySize == if newSize < 1 then 1 else newSize
    ensures r.history == Newest(g.history, r.historySize)
    ensures |r.history| <= r.historySize
    ensures r.barWidth == g.barWidth && r.pingerActive == g.pingerActive
  {
    var size := newSize;
    if size < 1 {
      size := 1;
    }
    var h := g.history;
    while |h| > size
      invariant h == g.history[|g.history| - |h|..]
      invariant |h| == |g.history| || |h| >= size
      decreases |h|
    {
      h := h[1..];
    }
    r := g.(historySize := size, history := h);
  }

  // ---------------------------------------------------------------------------
  // Mean

  /** Sum of the entries, folded from the left as `reduce(0, +)` does. */
  function Sum(h: seq<real>): real
    decreases |h|
  {
    if |h| == 0 then 0.0 else Sum(h[..|h| - 1]) + h[|h| - 1]
  }

  /** `averagePing`: absent for an empty history, otherwise the sum of every
      retained entry (timeouts included, as they are stored as numbers)
      divided by their count. */
  function AveragePing(g: Graph): (r: Option<real>)
    ensures r.None? <==> |g.history| == 0
    ensures r.Some? ==> r.value * (|g.history| as real) == Sum(g.history)
  {
    if |g.history| == 0 then None else Some(Sum(g.history) / (|g.history| as real))
  }

  lemma {:induction false} SumBounds(h: seq<real>, lo: real, hi: real)
    requires forall i :: 0 <= i < |h| ==> lo <= h[i] <= hi
    ensures (|h| as real) * lo <= Sum(h) <= (|h| as real) * hi
    decreases |h|
  {
    if |h| > 0 {
      SumBounds(h[..|h| - 1], lo, hi);
      assert lo <= h[|h| - 1] <= hi;
    }
  }

  lemma DivBounds(s: real, n: real, lo: real, hi: real)
    requires n > 0.0 && n * lo <= s <= n * hi
    ensures lo <= s / n <= hi
  {
  }

  /** The mean lies between the smallest and largest bound of the entries. */
  lemma AverageWithinBounds(g: Graph, lo: real, hi: real)
    requires |g.history| > 0
    requires forall i :: 0 <= i < |g.history| ==> lo <= g.history[i] <= hi
    ensures lo <= AveragePing(g).value <= hi
  {
    SumBounds(g.history, lo, hi);
    var n := |g.history| as real;
    DivBounds(Sum(g.history), n, lo, hi);
  }

  /** A history of identical entries (say, a run of timeouts) averages to that entry. */
  lemma AverageOfConstant(g: Graph, x: real)
    requires |g.history| > 0
    requires forall i :: 0 <= i < |g.history| ==> g.history[i] == x
    ensures AveragePing(g) == Some(x)
  {
    AverageWithinBounds(g, x, x);
  }

  lemma AverageExample()
    ensures AveragePing(Graph(24, 2, [0.010, 0.020, 0.030], true)) == Some(0.020)
    ensures AveragePing(Graph(24, 2, [], true)) == None
  {
    var h := [0.010, 0.020, 0.030];
    assert h[..2] == [0.010, 0.020];
    assert [0.010, 0.020][..1] == [0.010];
    assert [0.010][..0] == [];
    assert Sum([0.010]) == 0.010;
    assert Sum([0.010, 0.020]) == 0.030;
    assert Sum(h) == 0.060;
  }

  // ---------------------------------------------------------------------------
  // Bars

  /** Heights of the three overlaid rectangles of one bar. */
  datatype Bar = Bar(green: real, yellow: real, red: real)

  function Min(a: real, b: real): real {
    if a <= b then a else b
  }

  /** The share x / span of the height `h`: how far a round-trip time has
      progressed through a band of width `span`, scaled to the graph. */
  function Portion(x: real, span: real, h: real): real
    requires span > 0.0
  {
    x / span * h
  }

  /** Bar heights for one round-trip time in seconds, graph height `h`.
      Up to the fast threshold the green part grows; up to the medium
      threshold (the medium threshold itself, not fast plus medium) the
      yellow part grows over (ms - fast) / medium; beyond, the red part grows
      over (ms - medium) / slow, capped at the full height. */
  function BarHeights(response: real, h: real): (r: Bar)
    ensures var ms := response * 1000.0;
            && (ms <= FastMs ==> r.green * FastMs == ms * h && r.yellow == 0.0 && r.red == 0.0)
            && (FastMs < ms <= MediumMs ==> r.green == h && r.yellow * MediumMs == (ms - FastMs) * h && r.red == 0.0)
            && (ms > MediumMs ==> r.green == h && r.yellow == h && r.red == Min((ms - MediumMs) * h / SlowMs, h))
  {
    var ms := response * 1000.0;
    PortionTimesSpan(ms, FastMs, h);
    PortionTimesSpan(ms - FastMs, MediumMs, h);
    PortionTimesSpan(ms - MediumMs, SlowMs, h);
    if ms <= FastMs then Bar(Portion(ms, FastMs, h), 0.0, 0.0)
    else if ms <= MediumMs then Bar(h, Portion(ms - FastMs, MediumMs, h), 0.0)
    else Bar(h, h, Min(Portion(ms - MediumMs, SlowMs, h), h))
  }

  /** A portion times its band width is the share of the height, and equals
      x * h / span. */
  lemma PortionTimesSpan(x: real, span: real, h: real)
    requires span > 0.0
    ensures Portion(x, span, h) * span == x * h
    ensures Portion(x, span, h) == x * h / span
  {
    var q := x / span;
    assert q * span == x;
    assert (q * h) * span == (q * span) * h;
  }

  lemma MulLe(a: real, b: real, h: real)
    requires a <= b && h >= 0.0
    ensures a * h <= b * h
  {
  }

  lemma MulLt(a: real, b: real, h: real)
    requires a < b && h > 0.0
    ensures a * h < b * h
  {
  }

  /** Bounds of a fraction a / d against 0 and 1. */
  lemma Fraction(a: real, d: real)
    requires d > 0.0
    ensures a >= 0.0 ==> a / d >= 0.0
    ensures a > 0.0 ==> a / d > 0.0
    ensures a <= d ==> a / d <= 1.0
    ensures a < d ==> a / d < 1.0
    ensures a >= d ==> a / d >= 1.0
  {
    var q := a / d;
    assert q * d == a;
    if q < 0.0 {
      MulLt(q, 0.0, d);
    } else if 0.0 < q < 1.0 {
      MulLt(0.0, q, d);
      MulLt(q, 1.0, d);
    } else if q > 1.0 {
      MulLt(1.0, q, d);
    }
  }

  lemma DivLe(a: real, b: real, d: real)
    requires a <= b && d > 0.0
    ensures a / d <= b / d
  {
    assert b / d - a / d == (b - a) / d;
    Fraction(b - a, d);
  }

  /** A portion of at most the whole band lies within [0, h]. */
  lemma PortionWithin(x: real, span: real, h: real)
    requires 0.0 <= x <= span && span > 0.0 && h >= 0.0
    ensures 0.0 <= Portion(x, span, h) <= h
  {
    Fraction(x, span);
    MulLe(0.0, x / span, h);
    MulLe(x / span, 1.0, h);
  }

  lemma PortionPositive(x: real, span: real, h: real)
    requires x > 0.0 && span > 0.0 && h > 0.0
    ensures Portion(x, span, h) > 0.0
  {
    Fraction(x, span);
    MulLt(0.0, x / span, h);
  }

  lemma PortionBelow(x: real, span: real, h: real)
    requires x < span && span > 0.0 && h > 0.0
    ensures Portion(x, span, h) < h
  {
    Fraction(x, span);
    MulLt(x / span, 1.0, h);
  }

  lemma PortionAtLeast(x: real, span: real, h: real)
    requires x >= span && span > 0.0 && h >= 0.0
    ensures Portion(x, span, h) >= h
  {
    Fraction(x, span);
    MulLe(1.0, x / span, h);
  }

  lemma PortionWhole(span: real, h: real)
    requires span > 0.0
    ensures Portion(span, span, h) == h
  {
  }

  lemma PortionMonotone(x1: real, x2: real, span: real, h: real)
    requires x1 <= x2 && span > 0.0 && h >= 0.0
    ensures Portion(x1, span, h) <= Portion(x2, span, h)
  {
    DivLe(x1, x2, span);
    MulLe(x1 / span, x2 / span, h);
  }

  /** For a non-negative time every part lies between zero and the graph height. */
  lemma BarHeightsBounded(response: real, h: real)
    requires response >= 0.0 && h >= 0.0
    ensures var b := BarHeights(response, h);
            0.0 <= b.green <= h && 0.0 <= b.yellow <= h && 0.0 <= b.red <= h
  {
    var ms := response * 1000.0;
    if ms <= FastMs {
      PortionWithin(ms, FastMs, h);
    } else if ms <= MediumMs {
      PortionWithin(ms - FastMs, MediumMs, h);
    } else {
      var c := Portion(ms - MediumMs, SlowMs, h);
      if ms - MediumMs <= SlowMs {
        PortionWithin(ms - MediumMs, SlowMs, h);
      } else {
        PortionAtLeast(ms - MediumMs, SlowMs, h);
      }
      assert BarHeights(response, h).red == Min(c, h);
    }
  }

  lemma GreenMonotone(r1: real, r2: real, h: real)
    requires 0.0 <= r1 <= r2 && h >= 0.0
    ensures BarHeights(r1, h).green <= BarHeights(r2, h).green
  {
    var ms1, ms2 := r1 * 1000.0, r2 * 1000.0;
    if ms2 <= FastMs {
      PortionMonotone(ms1, ms2, FastMs, h);
    } else if ms1 <= FastMs {
      PortionWithin(ms1, FastMs, h);
    }
  }

  lemma YellowMonotone(r1: real, r2: real, h: real)
    requires 0.0 <= r1 <= r2 && h >= 0.0
    ensures BarHeights(r1, h).yellow <= BarHeights(r2, h).yellow
  {
    var ms1, ms2 := r1 * 1000.0, r2 * 1000.0;
    if ms1 <= FastMs {
      BarHeightsBounded(r2, h);
    } else if ms1 <= MediumMs {
      if ms2 <= MediumMs {
        PortionMonotone(ms1 - FastMs, ms2 - FastMs, MediumMs, h);
      } else {
        PortionWithin(ms1 - FastMs, MediumMs, h);
      }
    }
  }

  lemma RedMonotone(r1: real, r2: real, h: real)
    requires 0.0 <= r1 <= r2 && h >= 0.0
    ensures BarHeights(r1, h).red <= BarHeights(r2, h).red
  {
    var ms1, ms2 := r1 * 1000.0, r2 * 1000.0;
    if ms1 <= MediumMs {
      BarHeightsBounded(r2, h);
    } else {
      var c1, c2 := Portion(ms1 - MediumMs, SlowMs, h), Portion(ms2 - MediumMs, SlowMs, h);
      PortionMonotone(ms1 - MediumMs, ms2 - MediumMs, SlowMs, h);
      MinMonotone(c1, c2, h);
      assert BarHeights(r1, h).red == Min(c1, h);
      assert BarHeights(r2, h).red == Min(c2, h);
    }
  }

  lemma MinMonotone(a: real, b: real, c: real)
    requires a <= b
    ensures Min(a, c) <= Min(b, c)
  {
  }

  /** A slower response never draws a shorter part. */
  lemma BarHeightsMonotone(r1: real, r2: real, h: real)
    requires 0.0 <= r1 <= r2 && h >= 0.0
    ensures var b1, b2 := BarHeights(r1, h), BarHeights(r2, h);
            b1.green <= b2.green && b1.yellow <= b2.yellow && b1.red <= b2.red
  {
    GreenMonotone(r1, r2, h);
    YellowMonotone(r1, r2, h);
    RedMonotone(r1, r2, h);
  }

  /** Which parts show, for a positive graph height: yellow exactly above the
      fast threshold, red exactly above the medium threshold, green at full
      height from the fast threshold on, red at full height from
      medium + slow on. */
  lemma BarBands(response: real, h: real)
    requires response >= 0.0 && h > 0.0
    ensures var b, ms := BarHeights(response, h), response * 1000.0;
            && (b.yellow > 0.0 <==> ms > FastMs)
            && (b.red > 0.0 <==> ms > MediumMs)
            && (b.green == h <==> ms >= FastMs)
            && (b.red == h <==> ms >= MediumMs + SlowMs)
  {
    var ms := response * 1000.0;
    if ms < FastMs {
      PortionBelow(ms, FastMs, h);
    } else if ms == FastMs {
      PortionWhole(FastMs, h);
    } else if ms <= MediumMs {
      PortionPositive(ms - FastMs, MediumMs, h);
    } else if ms < MediumMs + SlowMs {
      var c := Portion(ms - MediumMs, SlowMs, h);
      PortionPositive(ms - MediumMs, SlowMs, h);
      PortionBelow(ms - MediumMs, SlowMs, h);
      assert BarHeights(response, h).red == c;
    } else {
      PortionAtLeast(ms - MediumMs, SlowMs, h);
      assert BarHeights(response, h).red == h;
    }
  }

  /** Because the yellow part divides by the medium threshold over a band
      that ends at that same threshold, it grows to at most 60% of the height
      and then jumps to the full height: it never shows a height strictly
      between those two. */
  lemma YellowSkipsTopOfBand(response: real, h: real)
    requires h > 0.0
    ensures var y := BarHeights(response, h).yellow;
            !(0.6 * h < y < h)
  {
    var ms := response * 1000.0;
    if FastMs < ms <= MediumMs {
      PortionMonotone(ms - FastMs, MediumMs - FastMs, MediumMs, h);
      assert Portion(MediumMs - FastMs, MediumMs, h) == 0.6 * h;
    }
  }

  lemma BarExamples()
    ensures BarHeights(0.030, GraphHeight) == Bar(16.5, 0.0, 0.0)
    ensures BarHeights(0.070, GraphHeight) == Bar(22.0, 6.6, 0.0)
    ensures BarHeights(0.350, GraphHeight) == Bar(22.0, 22.0, 22.0)
  {
  }

  /** One drawn bar: its left edge and width in points and its part heights. */
  datatype BarRect = BarRect(x: int, width: int, heights: Bar)

  /** `drawBars`: entry `i` of the history is drawn at
      (historySize - count + i) * barWidth with the heights of its time. */
  function DrawBars(g: Graph, h: real): (bars: seq<BarRect>)
    ensures |bars| == |g.history|
    ensures forall i :: 0 <= i < |bars| ==>
              bars[i].width == g.barWidth && bars[i].heights == BarHeights(g.history[i], h)
  {
    seq(|g.history|, i requires 0 <= i < |g.history| =>
      BarRect((g.historySize - |g.history| + i) * g.barWidth, g.barWidth, BarHeights(g.history[i], h)))
  }

  lemma MulLeInt(a: int, b: int, k: int)
    requires a <= b && k >= 0
    ensures a * k <= b * k
  {
  }

  /** One bar's slot: it starts at or right of 0 and ends within the view. */
  lemma BarSlotFits(slot: int, historySize: int, barWidth: int)
    requires 0 <= slot < historySize && barWidth >= 0
    ensures 0 <= slot * barWidth
    ensures slot * barWidth + barWidth <= historySize * barWidth
    ensures (slot + 1) * barWidth == slot * barWidth + barWidth
  {
    MulLeInt(0, slot, barWidth);
    MulLeInt(slot + 1, historySize, barWidth);
  }

  /** The bars are right-aligned and fit the view: they sit side by side,
      the newest ends at the right edge historySize * barWidth, and none
      starts left of zero. */
  lemma BarsRightAligned(g: Graph, h: real)
    requires |g.history| <= g.historySize && g.barWidth >= 0
    ensures var bars := DrawBars(g, h);
            && (forall i :: 0 <= i < |bars| ==>
                  0 <= bars[i].x && bars[i].x + g.barWidth <= g.historySize * g.barWidth)
            && (forall i :: 0 <= i < |bars| - 1 ==> bars[i + 1].x == bars[i].x + g.barWidth)
            && (|bars| > 0 ==> bars[|bars| - 1].x == (g.historySize - 1) * g.barWidth)
  {
    var bars := DrawBars(g, h);
    var first := g.historySize - |g.history|;
    forall i | 0 <= i < |bars|
      ensures 0 <= bars[i].x && bars[i].x + g.barWidth <= g.historySize * g.barWidth
    {
      assert bars[i].x == (first + i) * g.barWidth;
      BarSlotFits(first + i, g.historySize, g.barWidth);
    }
    forall i | 0 <= i < |bars| - 1
      ensures bars[i + 1].x == bars[i].x + g.barWidth
    {
      assert bars[i].x == (first + i) * g.barWidth;
      assert bars[i + 1].x == (first + i + 1) * g.barWidth;
      BarSlotFits(first + i, g.historySize, g.barWidth);
    }
  }
}

=== FILE: logger.dfy ===
/** The debug logger (pingthing/LogWindowController.swift): an append-only
    list of messages, read back as one newline-joined text. Calls are
    serialised on one queue in the app; here they are taken one at a time. */
module DebugLog {

  type Log = seq<string>

  /** `log(_:)`: the message goes at the end; nothing before it moves. */
  function Append(log: Log, message: string): (r: Log)
    ensures |r| == |log| + 1
    ensures r[..|log|] == log && r[|log|] == message
  {
    log + [message]
  }

  /** `PTdebugPrint`: the message prefixed by its formatted timestamp and ": ".
      How the timestamp is formatted is left abstract. */
  function DebugPrint(log: Log, timestamp: string, message: string): (r: Log)
    ensures |r| == |log| + 1 && r[..|log|] == log
    ensures r[|log|] == timestamp + ": " + message
  {
    Append(log, timestamp + ": " + message)
  }

  /** The store after logging each message in turn. */
  function LogAll(log: Log, messages: seq<string>): Log
    decreases |messages|
  {
    if |messages| == 0 then log else LogAll(Append(log, messages[0]), messages[1..])
  }

  /** Logging never removes or reorders: the old store is a prefix of the new
      one, and what follows it is the messages in call order. */
  lemma {:induction false} LogAllAppends(log: Log, messages: seq<string>)
    ensures LogAll(log, messages) == log + messages
    decreases |messages|
  {
    if |messages| > 0 {
      LogAllAppends(Append(log, messages[0]), messages[1..]);
      assert log + [messages[0]] + messages[1..] == log + messages;
    }
  }

  /** From an empty store, n calls leave exactly those n messages in call order. */
  lemma LogAllFromEmpty(messages: seq<string>)
    ensures LogAll([], messages) == messages
  {
    LogAllAppends([], messages);
    assert [] + messages == messages;
  }

  /** `joined(separator: "\n")`. */
  function Join(messages: seq<string>): string
    decreases |messages|
  {
    if |messages| == 0 then ""
    else if |messages| == 1 then messages[0]
    else messages[0] + "\n" + Join(messages[1..])
  }

  /** `fullLog()`: the messages joined by newlines. Split back at newlines
      it gives every message in order, as long as no message contains a
      newline itself; the empty log reads as "". */
  function FullLog(log: Log): (r: string)
    ensures |log| == 0 ==> r == ""
    ensures |log| > 0 && (forall i :: 0 <= i < |log| ==> NoNewline(log[i])) ==> Split(r) == log
    ensures |r| == TotalLength(log) + (if |log| == 0 then 0 else |log| - 1)
  {
    JoinLength(log);
    SplitJoin(log);
    Join(log)
  }

  /** Splits a text at every newline: the inverse of `Join` for lines that
      contain no newline. */
  function Split(s: string): (r: seq<string>)
    ensures |r| >= 1
    decreases |s|
  {
    if |s| == 0 then [""]
    else
      var rest := Split(s[1..]);
      if s[0] == '\n' then [""] + rest else [[s[0]] + rest[0]] + rest[1..]
  }

  predicate NoNewline(m: string) {
    forall i :: 0 <= i < |m| ==> m[i] != '\n'
  }

  lemma {:induction false} SplitLine(m: string, tail: string)
    requires NoNewline(m)
    ensures Split(m) == [m]
    ensures Split(m + "\n" + tail) == [m] + Split(tail)
    decreases |m|
  {
    if |m| > 0 {
      SplitLine(m[1..], tail);
      assert (m + "\n" + tail)[1..] == m[1..] + "\n" + tail;
      assert [m[0]] + m[1..] == m;
    } else {
      assert m + "\n" + tail == "\n" + tail;
      assert ("\n" + tail)[1..] == tail;
    }
  }

  /** `Split` inverts `Join` on a non-empty list of newline-free messages. */
  lemma {:induction false} SplitJoin(log: Log)
    ensures |log| > 0 && (forall i :: 0 <= i < |log| ==> NoNewline(log[i])) ==> Split(Join(log)) == log
    decreases |log|
  {
    if |log| == 1 {
      if NoNewline(log[0]) {
        SplitLine(log[0], "");
      }
    } else if |log| > 1 && forall i :: 0 <= i < |log| ==> NoNewline(log[i]) {
      assert forall i :: 0 <= i < |log[1..]| ==> NoNewline(log[1..][i]) by {
        forall i | 0 <= i < |log[1..]| ensures NoNewline(log[1..][i]) {
          assert log[1..][i] == log[i + 1];
        }
      }
      SplitJoin(log[1..]);
      SplitLine(log[0], Join(log[1..]));
      assert [log[0]] + log[1..] == log;
    }
  }

  /** The joined text has one separator between each pair of neighbouring messages. */
  lemma {:induction false} JoinLength(log: Log)
    ensures |Join(log)| == TotalLength(log) + (if |log| == 0 then 0 else |log| - 1)
    decreases |log|
  {
    if |log| > 1 {
      JoinLength(log[1..]);
    }
  }

  function TotalLength(log: Log): nat
    decreases |log|
  {
    if |log| == 0 then 0 else |log[0]| + TotalLength(log[1..])
  }
}

=== FILE: monitor.dfy ===
/** The network-path monitor (pingthing/NetworkMonitor.swift): every path
    update refreshes the published status, but a change notification is
    posted only when reachability differs from the value remembered from the
    last notification. */
module NetworkMonitor {
  import opened Options

  datatype PathStatus = Satisfied | Unsatisfied | RequiresConnection

  datatype InterfaceType = Other | Wifi | Cellular | WiredEthernet | Loopback

  /** One path update: its status, cost flags and the interface kinds it uses. */
  datatype Path = Path(status: PathStatus, isExpensive: bool, isConstrained: bool, interfaces: set<InterfaceType>)

  datatype Monitor = Monitor(
    isActive: bool,
    isExpensive: bool,
    isConstrained: bool,
    connectionType: InterfaceType,
    previousActive: bool)

  /** Before the first update nothing is active and the remembered value is `false`. */
  const Initial: Monitor := Monitor(false, false, false, Other, false)

  /** Interface kinds reported as the connection type, most preferred first. */
  const ConnectionPriority: seq<InterfaceType> := [Cellular, Wifi, WiredEthernet]

  /** The first candidate the path uses, if any (`first(where:)`). */
  function FirstUsed(candidates: seq<InterfaceType>, used: set<InterfaceType>): (r: Option<InterfaceType>)
    ensures r.None? <==> forall i :: 0 <= i < |candidates| ==> candidates[i] !in used
    ensures r.Some? ==> exists k :: 0 <= k < |candidates| && candidates[k] == r.value && r.value in used &&
                                    forall i :: 0 <= i < k ==> candidates[i] !in used
    decreases |candidates|
  {
    if |candidates| == 0 then None
    else if candidates[0] in used then Some(candidates[0])
    else
      var rest := FirstUsed(candidates[1..], used);
      if rest.Some? then FirstUsedOfTail(candidates, used, rest.value); rest
      else rest
  }

  /** A first used candidate of the tail is the first used candidate of the
      whole list when the head is unused. */
  lemma FirstUsedOfTail(candidates: seq<InterfaceType>, used: set<InterfaceType>, v: InterfaceType)
    requires |candidates| > 0 && candidates[0] !in used
    requires exists k :: 0 <= k < |candidates[1..]| && candidates[1..][k] == v && v in used &&
                         forall i :: 0 <= i < k ==> candidates[1..][i] !in used
    ensures exists k :: 0 <= k < |candidates| && candidates[k] == v && v in used &&
                        forall i :: 0 <= i < k ==> candidates[i] !in used
  {
    var k :| 0 <= k < |candidates[1..]| && candidates[1..][k] == v && v in used &&
             forall i :: 0 <= i < k ==> candidates[1..][i] !in used;
    assert candidates[k + 1] == v;
  }

  function ConnectionType(p: Path): InterfaceType {
    FirstUsed(ConnectionPriority, p.interfaces).GetOr(Other)
  }

  /** The reported connection type follows the priority cellular, Wi-Fi,
      wired Ethernet, and is `Other` when the path uses none of them. */
  lemma ConnectionTypeByPriority(p: Path)
    ensures Cellular in p.interfaces ==> ConnectionType(p) == Cellular
    ensures Cellular !in p.interfaces && Wifi in p.interfaces ==> ConnectionType(p) == Wifi
    ensures Cellular !in p.interfaces && Wifi !in p.interfaces && WiredEthernet in p.interfaces ==>
              ConnectionType(p) == WiredEthernet
    ensures Cellular !in p.interfaces && Wifi !in p.interfaces && WiredEthernet !in p.interfaces ==>
              ConnectionType(p) == Other
  {
    var r := FirstUsed(ConnectionPriority, p.interfaces);
    if r.Some? {
      var k :| 0 <= k < |ConnectionPriority| && ConnectionPriority[k] == r.value && r.value in p.interfaces &&
               forall i :: 0 <= i < k ==> ConnectionPriority[i] !in p.interfaces;
      if Cellular in p.interfaces {
        assert k == 0;
      } else if Wifi in p.interfaces {
        assert ConnectionPriority[0] !in p.interfaces;
        assert k == 1;
      }
    } else {
      assert ConnectionPriority[0] !in p.interfaces;
      assert ConnectionPriority[1] !in p.interfaces;
      assert ConnectionPriority[2] !in p.interfaces;
    }
  }

  /** The path-update handler: the new monitor state and the notification
      posted, if any. */
  function Update(m: Monitor, p: Path): (r: (Monitor, Option<bool>))
    ensures r.1.Some? <==> (p.status == Satisfied) != m.previousActive
    ensures r.1.Some? ==> r.1.value == (p.status == Satisfied)
    ensures r.0.isActive == (p.status == Satisfied) && r.0.previousActive == r.0.isActive
    ensures r.0.isExpensive == p.isExpensive && r.0.isConstrained == p.isConstrained
    ensures r.0.connectionType == ConnectionType(p)
  {
    var currentActive := p.status == Satisfied;
    var posted := if currentActive != m.previousActive then Some(currentActive) else None;
    (Monitor(currentActive, p.isExpensive, p.isConstrained, ConnectionType(p), currentActive), posted)
  }

  /** The monitor after a run of path updates. */
  function After(m: Monitor, paths: seq<Path>): Monitor
    decreases |paths|
  {
    if |paths| == 0 then m else After(Update(m, paths[0]).0, paths[1..])
  }

  /** The notifications a run of path updates posts, in order. */
  function Posted(m: Monitor, paths: seq<Path>): seq<bool>
    decreases |paths|
  {
    if |paths| == 0 then []
    else
      var (m1, posted) := Update(m, paths[0]);
      (if posted.Some? then [posted.value] else []) + Posted(m1, paths[1..])
  }

  /** After a non-empty run the published status is that of the last update,
      whether or not it caused a notification, and it equals the remembered value. */
  lemma {:induction false} AfterReflectsLastUpdate(m: Monitor, paths: seq<Path>)
    requires |paths| > 0
    ensures After(m, paths).isActive == (paths[|paths| - 1].status == Satisfied)
    ensures After(m, paths).previousActive == After(m, paths).isActive
    decreases |paths|
  {
    if |paths| > 1 {
      AfterReflectsLastUpdate(Update(m, paths[0]).0, paths[1..]);
      assert paths[1..][|paths[1..]| - 1] == paths[|paths| - 1];
    }
  }

  /** The first notification of a run differs from the value remembered at the
      start, and the value remembered at the end is the last notification, or
      the starting value if nothing was posted. */
  lemma {:induction false} PostedEnds(m: Monitor, paths: seq<Path>)
    ensures var posted := Posted(m, paths);
            && (|posted| > 0 ==> posted[0] != m.previousActive)
            && (|posted| > 0 ==> posted[|posted| - 1] == After(m, paths).previousActive)
            && (|posted| == 0 ==> After(m, paths).previousActive == m.previousActive)
    decreases |paths|
  {
    if |paths| > 0 {
      var m1, e := Update(m, paths[0]).0, Update(m, paths[0]).1;
      PostedEnds(m1, paths[1..]);
      var rest := Posted(m1, paths[1..]);
      assert After(m, paths) == After(m1, paths[1..]);
      if e.None? {
        assert Posted(m, paths) == rest;
        assert m1.previousActive == m.previousActive;
      } else {
        var posted := [e.value] + rest;
        assert Posted(m, paths) == posted;
        assert posted[0] == e.value && e.value == m1.previousActive;
        if |rest| > 0 {
          assert posted[|posted| - 1] == rest[|rest| - 1];
        }
      }
    }
  }

  /** No two neighbours are equal. */
  predicate Alternating(s: seq<bool>) {
    forall i :: 0 <= i < |s| - 1 ==> s[i] != s[i + 1]
  }

  /** Consecutive notifications always differ: the posted values alternate. */
  lemma {:induction false} PostedAlternates(m: Monitor, paths: seq<Path>)
    ensures Alternating(Posted(m, paths))
    decreases |paths|
  {
    if |paths| > 0 {
      var m1, e := Update(m, paths[0]).0, Update(m, paths[0]).1;
      PostedAlternates(m1, paths[1..]);
      var rest := Posted(m1, paths[1..]);
      if e.Some? {
        PostedEnds(m1, paths[1..]);
        var posted := [e.value] + rest;
        assert Posted(m, paths) == posted;
        forall i | 0 <= i < |posted| - 1
          ensures posted[i] != posted[i + 1]
        {
          if i > 0 {
            assert posted[i] == rest[i - 1] && posted[i + 1] == rest[i];
          }
        }
      } else {
        assert Posted(m, paths) == rest;
      }
    }
  }

  /** The monitor starts with `false` remembered: a first unsatisfied update
      posts nothing, a first satisfied update posts `true`. */
  lemma FirstUpdate(p: Path)
    ensures p.status == Satisfied ==> Update(Initial, p).1 == Some(true)
    ensures p.status != Satisfied ==> Update(Initial, p).1 == None
  {
  }

  /** Reachable, reachable, unreachable, unreachable, reachable posts three
      notifications, the first one for the first update. */
  lemma PostedExample(up: Path, down: Path)
    requires up.status == Satisfied && down.status == Unsatisfied
    ensures Posted(Initial, [up, up, down, down, up]) == [true, false, true]
  {
    var ps := [up, up, down, down, up];
    var m1 := Update(Initial, up).0;
    var m2 := Update(m1, up).0;
    var m3 := Update(m2, down).0;
    var m4 := Update(m3, down).0;
    assert ps[1..] == [up, down, down, up];
    assert ps[1..][1..] == [down, down, up];
    assert ps[1..][1..][1..] == [down, up];
    assert ps[1..][1..][1..][1..] == [up];
    assert Posted(m4, [up]) == [true];
    assert Posted(m3, [down, up]) == [true];
    assert Posted(m2, [down, down, up]) == [false, true];
    assert Posted(m1, [up, down, down, up]) == [false, true];
  }
}

=== FILE: options.dfy ===
/** Optional values, standing in for Swift's `T?`. */
module Options {

  datatype Option<+T> = None | Some(value: T) {

    /** The wrapped value, or `default` when there is none (Swift's `??`). */
    function GetOr(default: T): T {
      match this
      case Some(v) => v
      case None => default
    }
  }
}

=== FILE: preferences.dfy ===
/** The settings window's data path (pingthing/PreferencesWindowController.swift):
    loading the five fields from the store, saving them back with defaults
    for empty or unparsable input, and cancelling an edit. */
module Preferences {
  import opened Options
  import opened Constants
  import opened Settings

  /** The five text fields, as strings. */
  datatype Fields = Fields(target: string, interval: string, timeout: string, historySize: string, barWidth: string)

  /** What the window holds: the fields on screen and the values they showed
      when the window was last loaded. */
  datatype Window = Window(fields: Fields, originals: Fields)

  /** The number/string conversions the window uses (`String(_:)` of a
      Double and of an Int, `Double(_:)` and `Int(_:)` of a string); their
      exact text formats are left abstract. */
  datatype Formats = Formats(
    showDouble: real -> string,
    showInt: int -> string,
    parseDouble: string -> Option<real>,
    parseInt: string -> Option<int>)

  /** `loadPreferences`: every field shows the stored value, or the default
      when the key is missing or holds the wrong kind of object, and the
      originals are set to exactly what is shown. */
  function LoadPreferences(store: Store, fmt: Formats): (w: Window)
    ensures PingTargetKey in store && store[PingTargetKey].Text? ==>
              w.fields.target == store[PingTargetKey].text
    ensures !(PingTargetKey in store && store[PingTargetKey].Text?) ==>
              w.fields.target == DefaultPingTarget
    ensures PingIntervalKey in store && store[PingIntervalKey].Number? ==>
              w.fields.interval == fmt.showDouble(store[PingIntervalKey].number)
    ensures !(PingIntervalKey in store && store[PingIntervalKey].Number?) ==>
              w.fields.interval == fmt.showDouble(DefaultPingInterval)
    ensures PingTimeoutKey in store && store[PingTimeoutKey].Number? ==>
              w.fields.timeout == fmt.showDouble(store[PingTimeoutKey].number)
    ensures !(PingTimeoutKey in store && store[PingTimeoutKey].Number?) ==>
              w.fields.timeout == fmt.showDouble(DefaultPingTimeout)
    ensures HistorySizeKey in store && AsInt(store[HistorySizeKey]).Some? ==>
              w.fields.historySize == fmt.showInt(AsInt(store[HistorySizeKey]).value)
    ensures !(HistorySizeKey in store && AsInt(store[HistorySizeKey]).Some?) ==>
              w.fields.historySize == fmt.showInt(DefaultHistorySize)
    ensures BarWidthKey in store && AsInt(store[BarWidthKey]).Some? ==>
              w.fields.barWidth == fmt.showInt(AsInt(store[BarWidthKey]).value)
    ensures !(BarWidthKey in store && AsInt(store[BarWidthKey]).Some?) ==>
              w.fields.barWidth == fmt.showInt(DefaultBarWidth)
    ensures w.originals == w.fields
  {
    var c := ReadConfig(store);
    var f := Fields(c.target, fmt.showDouble(c.interval), fmt.showDouble(c.timeout),
                    fmt.showInt(c.historySize), fmt.showInt(c.barWidth));
    Window(f, f)
  }

  /** One step of `saveClicked`: a store write or the change notification. */
  datatype Effect = Write(key: string, value: Value) | PostPreferencesDidChange

  /** The effects of `saveClicked`, in order: an empty target saves the
      default target, any other target is saved verbatim; a number field that
      does not parse saves its default; nothing is range-checked; the
      notification comes last. */
  function SaveEffects(f: Fields, fmt: Formats): seq<Effect> {
    [ Write(PingTargetKey, Text(if f.target == "" then DefaultPingTarget else f.target)),
      Write(PingIntervalKey, Number(fmt.parseDouble(f.interval).GetOr(DefaultPingInterval))),
      Write(PingTimeoutKey, Number(fmt.parseDouble(f.timeout).GetOr(DefaultPingTimeout))),
      Write(HistorySizeKey, Number(fmt.parseInt(f.historySize).GetOr(DefaultHistorySize) as real)),
      Write(BarWidthKey, Number(fmt.parseInt(f.barWidth).GetOr(DefaultBarWidth) as real)),
      PostPreferencesDidChange ]
  }

  /** The number of change notifications among some effects. */
  function Posts(es: seq<Effect>): nat
    decreases |es|
  {
    if |es| == 0 then 0 else (if es[0].PostPreferencesDidChange? then 1 else 0) + Posts(es[1..])
  }

  /** Saving posts the change notification exactly once, after all five
      writes, and the five writes go to five different keys. */
  lemma SavePostsOnceAfterWrites(f: Fields, fmt: Formats)
    ensures var es := SaveEffects(f, fmt);
            && |es| == 6
            && Posts(es) == 1
            && es[5].PostPreferencesDidChange?
            && (forall i :: 0 <= i < 5 ==> es[i].Write?)
            && (forall i, j :: 0 <= i < j < 5 ==> es[i].key != es[j].key)
  {
    var es := SaveEffects(f, fmt);
    var p := PostPreferencesDidChange;
    assert es[1..] == es[1..6];
    assert Posts([p]) == 1;
    assert Posts([es[4], p]) == 1;
    assert Posts([es[3], es[4], p]) == 1;
    assert Posts([es[2], es[3], es[4], p]) == 1;
    assert Posts([es[1], es[2], es[3], es[4], p]) == 1;
    assert es == [es[0], es[1], es[2], es[3], es[4], p];
  }

  /** The store after applying some effects in order. */
  function Apply(store: Store, es: seq<Effect>): Store
    decreases |es|
  {
    if |es| == 0 then store
    else Apply(if es[0].Write? then store[es[0].key := es[0].value] else store, es[1..])
  }

  /** `saveClicked`: the store it leaves behind is the old one with the five
      preference keys overwritten, in order, by what the fields save. */
  function SaveClicked(w: Window, store: Store, fmt: Formats): (r: Store)
    ensures var f := w.fields;
            r == store[PingTargetKey := Text(if f.target == "" then DefaultPingTarget else f.target)]
                      [PingIntervalKey := Number(fmt.parseDouble(f.interval).GetOr(DefaultPingInterval))]
                      [PingTimeoutKey := Number(fmt.parseDouble(f.timeout).GetOr(DefaultPingTimeout))]
                      [HistorySizeKey := Number(fmt.parseInt(f.historySize).GetOr(DefaultHistorySize) as real)]
                      [BarWidthKey := Number(fmt.parseInt(f.barWidth).GetOr(DefaultBarWidth) as real)]
  {
    ApplySaveEffects(w.fields, store, fmt);
    Apply(store, SaveEffects(w.fields, fmt))
  }

  /** Applying the save effects writes the five keys in order, then posts. */
  lemma ApplySaveEffects(f: Fields, store: Store, fmt: Formats)
    ensures var es := SaveEffects(f, fmt);
            Apply(store, es) == store[PingTargetKey := es[0].value][PingIntervalKey := es[1].value]
                                     [PingTimeoutKey := es[2].value][HistorySizeKey := es[3].value]
                                     [BarWidthKey := es[4].value]
  {
    var es := SaveEffects(f, fmt);
    var s1 := store[PingTargetKey := es[0].value];
    var s2 := s1[PingIntervalKey := es[1].value];
    var s3 := s2[PingTimeoutKey := es[2].value];
    var s4 := s3[HistorySizeKey := es[3].value];
    var s5 := s4[BarWidthKey := es[4].value];
    var p := PostPreferencesDidChange;
    assert Apply(s5, [p]) == s5;
    assert Apply(s4, [es[4], p]) == s5;
    assert Apply(s3, [es[3], es[4], p]) == s5;
    assert Apply(s2, [es[2], es[3], es[4], p]) == s5;
    assert Apply(s1, [es[1], es[2], es[3], es[4], p]) == s5;
    assert es == [es[0], es[1], es[2], es[3], es[4], p];
  }

  predicate IsPreferenceKey(k: string) {
    k == PingTargetKey || k == PingIntervalKey || k == PingTimeoutKey || k == HistorySizeKey || k == BarWidthKey
  }

  /** After saving, every reader sees the field values (or the defaults that
      replace an empty target and unparsable numbers), and every other key
      of the store is as it was. */
  lemma SaveThenRead(w: Window, store: Store, fmt: Formats)
    ensures var f, saved := w.fields, SaveClicked(w, store, fmt);
            && ReadConfig(saved) == Config(
                 if f.target == "" then DefaultPingTarget else f.target,
                 fmt.parseDouble(f.interval).GetOr(DefaultPingInterval),
                 fmt.parseDouble(f.timeout).GetOr(DefaultPingTimeout),
                 fmt.parseInt(f.historySize).GetOr(DefaultHistorySize),
                 fmt.parseInt(f.barWidth).GetOr(DefaultBarWidth))
            && (forall k :: !IsPreferenceKey(k) ==> (k in saved <==> k in store))
            && (forall k :: !IsPreferenceKey(k) && k in store ==> saved[k] == store[k])
  {
  }

  /** The conversions read back the four numbers of `c` that the window
      shows: each shown number parses to itself. */
  predicate RoundTrips(fmt: Formats, c: Config) {
    && fmt.parseDouble(fmt.showDouble(c.interval)) == Some(c.interval)
    && fmt.parseDouble(fmt.showDouble(c.timeout)) == Some(c.timeout)
    && fmt.parseInt(fmt.showInt(c.historySize)) == Some(c.historySize)
    && fmt.parseInt(fmt.showInt(c.barWidth)) == Some(c.barWidth)
  }

  /** Opening the window and saving without edits changes no setting any
      reader sees, except that a stored empty target becomes the default
      target (the window shows it empty and an empty target saves the default). */
  lemma LoadThenSave(store: Store, fmt: Formats)
    requires RoundTrips(fmt, ReadConfig(store))
    ensures var before := ReadConfig(store);
            ReadConfig(SaveClicked(LoadPreferences(store, fmt), store, fmt)) ==
              before.(target := if before.target == "" then DefaultPingTarget else before.target)
  {
    SaveThenRead(LoadPreferences(store, fmt), store, fmt);
  }

  /** The hypothesis of `LoadThenSave` can be met: conversions that print
      the default numbers as "1", "5", "24" and "2" and parse them back
      leave an empty store's settings as they were. */
  lemma LoadThenSaveOnEmptyStore()
    ensures var fmt := Formats(
              x => if x == DefaultPingInterval then "1" else "5",
              n => if n == DefaultHistorySize then "24" else "2",
              s => if s == "1" then Some(DefaultPingInterval) else Some(DefaultPingTimeout),
              s => if s == "24" then Some(DefaultHistorySize) else Some(DefaultBarWidth));
            && RoundTrips(fmt, ReadConfig(map[]))
            && ReadConfig(SaveClicked(LoadPreferences(map[], fmt), map[], fmt)) == ReadConfig(map[])
  {
    var fmt := Formats(
      x => if x == DefaultPingInterval then "1" else "5",
      n => if n == DefaultHistorySize then "24" else "2",
      s => if s == "1" then Some(DefaultPingInterval) else Some(DefaultPingTimeout),
      s => if s == "24" then Some(DefaultHistorySize) else Some(DefaultBarWidth));
    EmptyStoreReadsDefaults();
    LoadThenSave(map[], fmt);
  }

  /** `cancelClicked`: every field goes back to its original; the store is not touched. */
  function CancelClicked(w: Window): (r: Window)
    ensures r.fields == w.originals && r.originals == w.originals
  {
    w.(fields := w.originals)
  }

  /** Whatever was typed after loading, cancelling shows the loaded values again. */
  lemma EditThenCancel(store: Store, fmt: Formats, edited: Fields)
    ensures var w := LoadPreferences(store, fmt);
            CancelClicked(w.(fields := edited)) == w
  {
  }
}

=== FILE: settings.dfy ===
/** The user-defaults store as the core reads it: a map from key to a
    stored object, read back with Swift's conditional casts (`as? String`,
    `as? Double`, `as? Int`) and a default on any miss
    (pingthing/AppDelegate.swift, pingthing/PreferencesWindowController.swift). */
module Settings {
  import opened Options
  import opened Constants

  /** A stored property-list object: a string, a number, or anything else
      (data, dates, arrays) that none of the casts accept. */
  datatype Value = Text(text: string) | Number(number: real) | OtherObject

  type Store = map<string, Value>

  const PingTargetKey: string := "PingTarget"
  const PingIntervalKey: string := "PingInterval"
  const PingTimeoutKey: string := "PingTimeout"
  const HistorySizeKey: string := "HistorySize"
  const BarWidthKey: string := "BarWidth"

  /** `as? String` succeeds only on a string. */
  function AsString(v: Value): (r: Option<string>)
    ensures r.Some? <==> v.Text?
    ensures r.Some? ==> r.value == v.text
  {
    if v.Text? then Some(v.text) else None
  }

  /** `as? Double` succeeds on every number. */
  function AsDouble(v: Value): (r: Option<real>)
    ensures r.Some? <==> v.Number?
    ensures r.Some? ==> r.value == v.number
  {
    if v.Number? then Some(v.number) else None
  }

  /** `as? Int` on a bridged number succeeds only when the value is exactly
      an integer; a fractional number does not convert. */
  function AsInt(v: Value): (r: Option<int>)
    ensures r.Some? <==> v.Number? && v.number == v.number.Floor as real
    ensures r.Some? ==> r.value as real == v.number
  {
    if v.Number? && v.number == v.number.Floor as real then Some(v.number.Floor) else None
  }

  /** `store.object(forKey: key) as? T ?? default`. */
  function Read<T>(store: Store, key: string, cast: Value -> Option<T>, default: T): (r: T)
    ensures key in store && cast(store[key]).Some? ==> r == cast(store[key]).value
    ensures key !in store || cast(store[key]).None? ==> r == default
  {
    if key in store then cast(store[key]).GetOr(default) else default
  }

  /** The five settings as every reader in the app sees them. */
  datatype Config = Config(target: string, interval: real, timeout: real, historySize: int, barWidth: int)

  /** Each setting is the stored object when it has the right kind, and its
      default when the key is missing or holds something else; a number that
      is not an integer does not read as a size or width. */
  function ReadConfig(store: Store): (r: Config)
    ensures r.target == if PingTargetKey in store && store[PingTargetKey].Text?
                        then store[PingTargetKey].text else DefaultPingTarget
    ensures r.interval == if PingIntervalKey in store && store[PingIntervalKey].Number?
                          then store[PingIntervalKey].number else DefaultPingInterval
    ensures r.timeout == if PingTimeoutKey in store && store[PingTimeoutKey].Number?
                         then store[PingTimeoutKey].number else DefaultPingTimeout
    ensures HistorySizeKey in store && AsInt(store[HistorySizeKey]).Some? ==>
              r.historySize as real == store[HistorySizeKey].number
    ensures !(HistorySizeKey in store && AsInt(store[HistorySizeKey]).Some?) ==> r.historySize == DefaultHistorySize
    ensures BarWidthKey in store && AsInt(store[BarWidthKey]).Some? ==>
              r.barWidth as real == store[BarWidthKey].number
    ensures !(BarWidthKey in store && AsInt(store[BarWidthKey]).Some?) ==> r.barWidth == DefaultBarWidth
  {
    Config(
      Read(store, PingTargetKey, AsString, DefaultPingTarget),
      Read(store, PingIntervalKey, AsDouble, DefaultPingInterval),
      Read(store, PingTimeoutKey, AsDouble, DefaultPingTimeout),
      Read(store, HistorySizeKey, AsInt, DefaultHistorySize),
      Read(store, BarWidthKey, AsInt, DefaultBarWidth))
  }

  /** An empty store yields every default. */
  lemma EmptyStoreReadsDefaults()
    ensures ReadConfig(map[]) == Config(DefaultPingTarget, DefaultPingInterval, DefaultPingTimeout,
                                        DefaultHistorySize, DefaultBarWidth)
  {
  }
}

=== FILE: supervisor.dfy ===
/** The pinger supervisor (pingthing/AppDelegate.swift): the app delegate's
    state machine over the current pinger, a single pending set-up retry,
    the status item with its response graph, and the menu title. It is
    driven by a sequential trace of events: launch, network path updates,
    saved preferences, retry timers and probe results. What SwiftyPing does
    when asked to create or start a pinger is an input of each event that
    may trigger a set-up. */
module Supervisor {
  import opened Options
  import opened Constants
  import opened Settings
  import History
  import NetworkMonitor
  import Preferences

  /** A SwiftyPing instance: a fresh identity, its configuration, and the
      address it resolved, if any. */
  datatype Pinger = Pinger(id: nat, target: string, interval: real, timeout: real, ip: Option<string>)

  /** The kind of text shown in the first menu line (formatting left out). */
  datatype Title =
    | Initializing
    | WaitingForNetwork
    | CreateFailed
    | StartFailed
    | LookupFailed
    | PingFailed
    | TimedOut
    | Replied(ms: real)

  /** The status button's tooltip: a fixed text, or the last round-trip
      time with the graph's mean, both in milliseconds. */
  datatype Tooltip = Plain(text: string) | Summary(ms: real, averageMs: real)

  const AppNameTip: Tooltip := Plain(AppName)
  const TimeoutTip: Tooltip := Plain("timeout")

  /** The status-bar item: its length in points and the graph and tooltip it carries. */
  datatype StatusItem = StatusItem(length: int, graph: History.Graph, tooltip: Tooltip)

  /** The delegate's state. `running` holds the identities of pingers that
      were started and not yet stopped; `started` maps every pinger ever
      started to the timeout its observer closure captured; `retry` is the
      token of the pending retry work item, fresh tokens coming from
      `nextRetry`. */
  datatype State = State(
    monitor: NetworkMonitor.Monitor,
    store: Store,
    target: string,
    pinger: Option<Pinger>,
    running: set<nat>,
    started: map<nat, real>,
    nextPinger: nat,
    retry: Option<nat>,
    nextRetry: nat,
    status: Option<StatusItem>,
    title: Title)

  /** The state before `applicationDidFinishLaunching` runs its first set-up. */
  function Init(store: Store): State {
    State(NetworkMonitor.Initial, store, "", None, {}, map[], 0, None, 0, None, Initializing)
  }

  /** What SwiftyPing does if asked: whether creation succeeds (and the
      address it resolved), and whether starting succeeds. */
  datatype Attempt = Attempt(created: bool, ip: Option<string>, started: bool)

  datatype PingError = RequestTimeout | ResponseTimeout | UnknownHost | AddressLookup | HostNotFound | OtherError

  datatype PingResult = Reply(duration: real) | Failed(error: PingError)

  predicate IsTimeout(e: PingError) {
    e == RequestTimeout || e == ResponseTimeout
  }

  predicate IsLookupFailure(e: PingError) {
    e == UnknownHost || e == AddressLookup || e == HostNotFound
  }

  /** The events the delegate reacts to. A probe result names the pinger
      whose observer delivers it; that pinger may since have been stopped. */
  datatype Event =
    | Launched(attempt: Attempt)
    | PathUpdated(path: NetworkMonitor.Path, attempt: Attempt)
    | PreferencesSaved(window: Preferences.Window, attempt: Attempt)
    | RetryFired(token: nat, attempt: Attempt)
    | ProbeDelivered(from: nat, result: PingResult)

  /** The reachable states: only the current pinger can be running, a pinger
      exists only once the status item does, identities and tokens come from
      their counters, a running pinger's observer holds that pinger's own
      timeout, and the monitor remembers what it last published. */
  predicate Inv(s: State) {
    && (s.pinger.None? ==> s.running == {})
    && (s.pinger.Some? ==> s.running <= {s.pinger.value.id} && s.pinger.value.id < s.nextPinger && s.status.Some?)
    && s.running <= s.started.Keys
    && (forall id | id in s.started :: id < s.nextPinger)
    && (s.pinger.Some? && s.pinger.value.id in s.started ==> s.started[s.pinger.value.id] == s.pinger.value.timeout)
    && (s.retry.Some? ==> s.retry.value < s.nextRetry)
    && s.monitor.previousActive == s.monitor.isActive
  }

  lemma InitSatisfiesInv(store: Store)
    ensures Inv(Init(store))
  {
  }

  // ---------------------------------------------------------------------------
  // Graph access through the optional status item

  function SetGraphActive(status: Option<StatusItem>, active: bool): Option<StatusItem> {
    if status.Some? then Some(status.value.(graph := status.value.graph.(pingerActive := active))) else None
  }

  function SetTooltip(status: Option<StatusItem>, tip: Tooltip): Option<StatusItem> {
    if status.Some? then Some(status.value.(tooltip := tip)) else None
  }

  /** `pingGraphView?.addPingResponse(_:)`. A graph created with a negative
      history size would trap in the eviction; the model leaves it unchanged. */
  function Record(status: Option<StatusItem>, response: real): Option<StatusItem> {
    if status.Some? && status.value.graph.historySize >= 0 then
      Some(status.value.(graph := History.AddPingResponse(status.value.graph, response)))
    else status
  }

  function Samples(s: State): seq<real> {
    if s.status.Some? then s.status.value.graph.history else []
  }

  // ---------------------------------------------------------------------------
  // Operations of the delegate

  /** `stopPinger`: stops and drops the current pinger if there is one,
      shows the waiting title and greys the graph. A pending retry stays. */
  function StopPinger(s: State): (r: State)
    ensures r.pinger.None?
    ensures r.running == if s.pinger.Some? then s.running - {s.pinger.value.id} else s.running
    ensures r.title == WaitingForNetwork
    ensures r.retry == s.retry && r.nextRetry == s.nextRetry && r.nextPinger == s.nextPinger
    ensures r.started == s.started
    ensures r.status.Some? <==> s.status.Some?
    ensures r.status.Some? ==> !r.status.value.graph.pingerActive && Samples(r) == Samples(s)
    ensures r.monitor == s.monitor && r.store == s.store && r.target == s.target
    ensures Inv(s) ==> Inv(r) && r.running == {}
    ensures r.status == SetGraphActive(s.status, false)
  {
    var running := if s.pinger.Some? then s.running - {s.pinger.value.id} else s.running;
    s.(pinger := None, running := running, title := WaitingForNetwork,
       status := SetGraphActive(s.status, false))
  }

  /** `schedulePingerSetupRetry`: cancels the pending work item, if any, and
      schedules a new one; at most one is ever pending. */
  function ScheduleRetry(s: State): (r: State)
    ensures r.retry.Some? && r.retry.value == s.nextRetry
    ensures r.nextRetry > s.nextRetry
    ensures r == s.(retry := r.retry, nextRetry := r.nextRetry)
    ensures s.retry.Some? && s.retry.value < s.nextRetry ==> r.retry != s.retry
    ensures Inv(s) ==> Inv(r)
  {
    s.(retry := Some(s.nextRetry), nextRetry := s.nextRetry + 1)
  }

  /** True when `createStatusItem` would keep the current item. */
  predicate KeepsStatusItem(s: State) {
    var c := ReadConfig(s.store);
    s.status.Some? && s.status.value.length == c.historySize * c.barWidth
  }

  /** `createStatusItem`: keeps the existing item when its length equals
      historySize * barWidth from the store; otherwise replaces it with a new
      one holding a new, empty graph (which draws in colour) and the app's
      name as tooltip. */
  function CreateStatusItem(s: State): (r: State)
    ensures var c := ReadConfig(s.store);
            && r.status.Some? && r.status.value.length == c.historySize * c.barWidth
            && (KeepsStatusItem(s) ==> r == s)
            && (!KeepsStatusItem(s) ==>
                  r.status.value.graph == History.NewGraph(c.historySize, c.barWidth) &&
                  r.status.value.tooltip == AppNameTip &&
                  r == s.(status := r.status))
  {
    var c := ReadConfig(s.store);
    var width := c.historySize * c.barWidth;
    if KeepsStatusItem(s) then s
    else s.(status := Some(StatusItem(width, History.NewGraph(c.historySize, c.barWidth), AppNameTip)))
  }

  /** The keep-or-replace decision compares only the product
      historySize * barWidth: a change of both settings with the same product
      (24 x 2 to 48 x 1) keeps the old graph with its old history size. */
  lemma StatusItemKeptOnSameProduct(s: State)
    requires s.status.Some? && s.status.value.length == 48
    requires s.status.value.graph.historySize == 24 && s.status.value.graph.barWidth == 2
    requires s.store == map[HistorySizeKey := Number(48.0), BarWidthKey := Number(1.0)]
    ensures ReadConfig(s.store).historySize == 48 && ReadConfig(s.store).barWidth == 1
    ensures CreateStatusItem(s).status.value.graph.historySize == 24
  {
    assert ReadConfig(s.store).historySize == 48;
    assert ReadConfig(s.store).barWidth == 1;
  }

  /** `setupPinger`: cancels the pending retry, stops the current pinger and
      reads the configuration; with the network down it schedules a retry;
      otherwise it makes sure the status item exists and creates and starts a
      new pinger. A failed creation schedules a retry; a failed start does
      not, and leaves the created pinger in place. */
  function SetupPinger(s: State, a: Attempt): (r: State)
    // what is read and what is kept
    ensures r.monitor == s.monitor && r.store == s.store
    ensures r.target == ReadConfig(s.store).target
    // network down
    ensures !s.monitor.isActive ==>
              && r.pinger.None? && r.retry.Some? && r.title == WaitingForNetwork
              && (r.status.Some? <==> s.status.Some?)
              && (r.status.Some? ==> !r.status.value.graph.pingerActive && Samples(r) == Samples(s))
    // network up: the status item exists with the configured length
    ensures s.monitor.isActive ==>
              && r.status.Some?
              && r.status.value.length == ReadConfig(s.store).historySize * ReadConfig(s.store).barWidth
              && Samples(r) == (if KeepsStatusItem(s) then Samples(s) else [])
    // creation fails
    ensures s.monitor.isActive && !a.created ==>
              r.pinger.None? && r.retry.Some? && r.title == CreateFailed
    // creation succeeds: a fresh pinger with the stored configuration, no retry pending
    ensures s.monitor.isActive && a.created ==>
              && r.retry.None?
              && r.pinger == Some(Pinger(s.nextPinger, ReadConfig(s.store).target,
                                         ReadConfig(s.store).interval, ReadConfig(s.store).timeout, a.ip))
    // start succeeds: graph in colour; start fails: error title, graph colour as left by createStatusItem
    ensures s.monitor.isActive && a.created && a.started ==>
              r.status.value.graph.pingerActive && r.title == WaitingForNetwork
    ensures s.monitor.isActive && a.created && !a.started ==>
              r.title == StartFailed && (r.status.value.graph.pingerActive <==> !KeepsStatusItem(s))
    // only a started pinger's observer can deliver, with the configured timeout
    ensures r.started == if s.monitor.isActive && a.created && a.started
                         then s.started[s.nextPinger := ReadConfig(s.store).timeout] else s.started
    // at most one running pinger, and it is the current one
    ensures Inv(s) ==>
              Inv(r) && r.running == (if s.monitor.isActive && a.created && a.started then {s.nextPinger} else {})
    // a retry it schedules is a new one
    ensures Inv(s) && r.retry.Some? ==> r.retry != s.retry
  {
    var s1 := StopPinger(s.(retry := None));
    var c := ReadConfig(s1.store);
    var s2 := s1.(target := c.target);
    if !s2.monitor.isActive then
      ScheduleRetry(s2)
    else
      var s3 := CreateStatusItem(s2);
      if !a.created then
        ScheduleRetry(s3.(title := CreateFailed))
      else
        var p := Pinger(s3.nextPinger, c.target, c.interval, c.timeout, a.ip);
        var s4 := s3.(pinger := Some(p), nextPinger := s3.nextPinger + 1);
        if a.started then
          s4.(running := s4.running + {p.id}, started := s4.started[p.id := c.timeout],
              status := SetGraphActive(s4.status, true))
        else
          s4.(title := StartFailed)
  }

  /** The current pinger exists and resolved its target to an address. */
  predicate Resolved(s: State) {
    s.pinger.Some? && s.pinger.value.ip.Some?
  }

  /** `timeoutResponse`: the timeout value goes into the history like any
      round-trip time; the title and tooltip change only while a pinger
      with a resolved address exists. */
  function TimeoutResponse(s: State, timeout: real): (r: State)
    ensures r == s.(title := r.title, status := r.status)
    ensures r.status.Some? <==> s.status.Some?
    ensures r.status.Some? ==> r.status.value.length == s.status.value.length
    ensures s.status.Some? && s.status.value.graph.historySize >= 0 ==>
              r.status.value.graph == History.AddPingResponse(s.status.value.graph, timeout)
    ensures Resolved(s) ==> r.title == TimedOut && (r.status.Some? ==> r.status.value.tooltip == TimeoutTip)
    ensures !Resolved(s) ==> r.title == s.title && (r.status.Some? ==> r.status.value.tooltip == s.status.value.tooltip)
  {
    var s1 := s.(status := Record(s.status, timeout));
    if !Resolved(s1) then s1
    else s1.(title := TimedOut, status := SetTooltip(s1.status, TimeoutTip))
  }

  /** `updatePingResponse`: records the duration, then (with a resolved
      pinger) shows it and, when the graph has a mean, the mean in the tooltip. */
  function UpdatePingResponse(s: State, duration: real): (r: State)
    ensures r == s.(title := r.title, status := r.status)
    ensures r.status.Some? <==> s.status.Some?
    ensures r.status.Some? ==> r.status.value.length == s.status.value.length
    ensures s.status.Some? && s.status.value.graph.historySize >= 0 ==>
              r.status.value.graph == History.AddPingResponse(s.status.value.graph, duration)
    ensures Resolved(s) ==> r.title == Replied(duration * 1000.0)
    ensures Resolved(s) && r.status.Some? && |r.status.value.graph.history| == 0 ==>
              r.status.value.tooltip == AppNameTip
    ensures Resolved(s) && r.status.Some? && |r.status.value.graph.history| > 0 ==>
              && History.AveragePing(r.status.value.graph).Some?
              && r.status.value.tooltip ==
                   Summary(duration * 1000.0, History.AveragePing(r.status.value.graph).value * 1000.0)
    ensures !Resolved(s) ==> r.title == s.title && (r.status.Some? ==> r.status.value.tooltip == s.status.value.tooltip)
  {
    var status := Record(s.status, duration);
    if !Resolved(s) then s.(status := status)
    else
      var avg := if status.Some? then History.AveragePing(status.value.graph) else None;
      var tip := if avg.Some? then Summary(duration * 1000.0, avg.value * 1000.0) else AppNameTip;
      s.(status := SetTooltip(status, tip), title := Replied(duration * 1000.0))
  }

  /** The observer closure: a timeout is recorded and nothing else happens;
      a lookup failure or any other error records nothing and schedules a
      retry; a reply is recorded. No result touches the pinger. */
  function HandleResult(s: State, timeout: real, result: PingResult): (r: State)
    ensures r.pinger == s.pinger && r.running == s.running && r.started == s.started && r.nextPinger == s.nextPinger
    ensures r.monitor == s.monitor && r.store == s.store
    ensures r.status.Some? <==> s.status.Some?
    ensures result.Failed? && IsTimeout(result.error) ==>
              && r.retry == s.retry
              && (s.status.Some? && s.status.value.graph.historySize >= 0 ==>
                    r.status.value.graph == History.AddPingResponse(s.status.value.graph, timeout))
    ensures result.Failed? && !IsTimeout(result.error) ==>
              && r.status == s.status && r.retry.Some? && (Inv(s) ==> r.retry != s.retry)
              && r.title == (if IsLookupFailure(result.error) then LookupFailed else PingFailed)
    ensures result.Reply? ==>
              && r.retry == s.retry
              && (s.status.Some? && s.status.value.graph.historySize >= 0 ==>
                    r.status.value.graph == History.AddPingResponse(s.status.value.graph, result.duration))
    ensures Inv(s) ==> Inv(r)
  {
    match result
    case Reply(d) => UpdatePingResponse(s, d)
    case Failed(e) =>
      if IsTimeout(e) then TimeoutResponse(s, timeout)
      else if IsLookupFailure(e) then ScheduleRetry(s.(title := LookupFailed))
      else ScheduleRetry(s.(title := PingFailed))
  }

  /** `handleNetworkChange`: reachable runs `setupPinger`, unreachable runs
      `stopPinger`. Reached through the monitor, the published reachability
      then equals `isConnected`. */
  function HandleNetworkChange(s: State, isConnected: bool, a: Attempt): (r: State)
    ensures !isConnected ==> r.pinger.None? && r.retry == s.retry && r.title == WaitingForNetwork
    ensures !isConnected && Inv(s) ==> r.running == {}
    ensures isConnected && s.monitor.isActive ==> r.status.Some? && (r.retry.None? <==> a.created)
    ensures isConnected && Inv(s) ==>
              r.running == (if s.monitor.isActive && a.created && a.started then {s.nextPinger} else {})
    ensures Inv(s) ==> Inv(r)
  {
    if isConnected then SetupPinger(s, a) else StopPinger(s)
  }

  /** One event. A path update goes through the monitor first; only a
      posted change reaches `handleNetworkChange`. A retry whose work item
      was cancelled (its token is no longer pending) does nothing. */
  function Step(s: State, e: Event, fmt: Preferences.Formats): (r: State)
    ensures Inv(s) ==> Inv(r)
    ensures e.RetryFired? && s.retry != Some(e.token) ==> r == s
    ensures e.ProbeDelivered? && e.from !in s.started ==> r == s
    ensures e.ProbeDelivered? ==> r.pinger == s.pinger && r.running == s.running && r.store == s.store
  {
    match e
    case Launched(a) => SetupPinger(s, a)
    case PathUpdated(path, a) =>
      var (m, posted) := NetworkMonitor.Update(s.monitor, path);
      var s1 := s.(monitor := m);
      assert Inv(s) ==> Inv(s1);
      if posted.Some? then HandleNetworkChange(s1, posted.value, a) else s1
    case PreferencesSaved(w, a) =>
      SetupPinger(s.(store := Preferences.SaveClicked(w, s.store, fmt)), a)
    case RetryFired(token, a) =>
      if s.retry == Some(token) then SetupPinger(s, a) else s
    case ProbeDelivered(from, result) =>
      if from in s.started then HandleResult(s, s.started[from], result) else s
  }

  function Run(s: State, events: seq<Event>, fmt: Preferences.Formats): State
    decreases |events|
  {
    if |events| == 0 then s else Run(Step(s, events[0], fmt), events[1..], fmt)
  }

  // ---------------------------------------------------------------------------
  // Properties over events and traces

  /** From launch on, whatever happens, only the current pinger can be
      running: no pinger is ever leaked, so at most one is live. */
  lemma {:induction false} RunPreservesInv(s: State, events: seq<Event>, fmt: Preferences.Formats)
    requires Inv(s)
    ensures Inv(Run(s, events, fmt))
    ensures |Run(s, events, fmt).running| <= 1
    decreases |events|
  {
    if |events| > 0 {
      RunPreservesInv(Step(s, events[0], fmt), events[1..], fmt);
    } else {
      AtMostOneRunning(s);
    }
  }

  lemma AtMostOneRunning(s: State)
    requires Inv(s)
    ensures |s.running| <= 1
  {
    if s.pinger.Some? {
      var p := s.pinger.value.id;
      assert s.running <= {p};
      if p in s.running {
        assert s.running == {p};
      } else {
        assert s.running == {};
      }
    }
  }

  /** The network going down stops and drops the pinger and greys the graph,
      but leaves a pending retry pending. */
  lemma NetworkDown(s: State, path: NetworkMonitor.Path, a: Attempt, fmt: Preferences.Formats)
    requires Inv(s) && s.monitor.isActive && path.status != NetworkMonitor.Satisfied
    ensures var r := Step(s, PathUpdated(path, a), fmt);
            && r.pinger.None? && r.running == {} && r.retry == s.retry && r.title == WaitingForNetwork
            && !r.monitor.isActive
            && (r.status.Some? ==> !r.status.value.graph.pingerActive && Samples(r) == Samples(s))
  {
  }

  /** The network coming up runs the full set-up at once. */
  lemma NetworkUp(s: State, path: NetworkMonitor.Path, a: Attempt, fmt: Preferences.Formats)
    requires Inv(s) && !s.monitor.isActive && path.status == NetworkMonitor.Satisfied
    ensures var r := Step(s, PathUpdated(path, a), fmt);
            && r == SetupPinger(s.(monitor := NetworkMonitor.Update(s.monitor, path).0), a)
            && r.monitor.isActive
            && (r.retry.None? <==> a.created)
  {
  }

  /** A path update that does not change reachability touches nothing but the monitor. */
  lemma UnchangedReachability(s: State, path: NetworkMonitor.Path, a: Attempt, fmt: Preferences.Formats)
    requires Inv(s) && s.monitor.isActive == (path.status == NetworkMonitor.Satisfied)
    ensures Step(s, PathUpdated(path, a), fmt) == s.(monitor := NetworkMonitor.Update(s.monitor, path).0)
  {
  }

  /** A cancelled retry never runs. */
  lemma StaleRetryIgnored(s: State, token: nat, a: Attempt, fmt: Preferences.Formats)
    requires s.retry != Some(token)
    ensures Step(s, RetryFired(token, a), fmt) == s
  {
  }

  /** Set-up with the network down schedules one retry; if the network comes
      up before it fires, set-up runs at once and the earlier retry, when it
      fires, does nothing: one start-up, not two. */
  lemma NetworkUpSupersedesRetry(s: State, a1: Attempt, up: NetworkMonitor.Path, a2: Attempt,
                                 a3: Attempt, fmt: Preferences.Formats)
    requires Inv(s) && !s.monitor.isActive && up.status == NetworkMonitor.Satisfied
    ensures var s1 := Step(s, Launched(a1), fmt);
            var s2 := Step(s1, PathUpdated(up, a2), fmt);
            && s1.retry.Some? && s1.pinger.None?
            && s2.retry != s1.retry
            && Step(s2, RetryFired(s1.retry.value, a3), fmt) == s2
  {
    var s1 := Step(s, Launched(a1), fmt);
    var s2 := Step(s1, PathUpdated(up, a2), fmt);
    assert Inv(s1);
    NetworkUp(s1, up, a2, fmt);
  }

  /** Set-up run twice in a row leaves at most the second pinger running. */
  lemma SetupTwice(s: State, a1: Attempt, a2: Attempt)
    requires Inv(s)
    ensures var r := SetupPinger(SetupPinger(s, a1), a2);
            r.running <= (if r.pinger.Some? then {r.pinger.value.id} else {})
  {
  }

  /** `n` timeouts delivered by the observer of pinger `from`. */
  function Timeouts(from: nat, n: nat): seq<Event>
    decreases n
  {
    if n == 0 then [] else [ProbeDelivered(from, Failed(RequestTimeout))] + Timeouts(from, n - 1)
  }

  function Repeat(x: real, n: nat): seq<real>
    decreases n
  {
    if n == 0 then [] else [x] + Repeat(x, n - 1)
  }

  /** A timeout from the running pinger records the timeout that pinger was
      configured with. */
  lemma TimeoutRecordsPingerTimeout(s: State, e: PingError, fmt: Preferences.Formats)
    requires Inv(s) && s.pinger.Some? && s.pinger.value.id in s.running && IsTimeout(e)
    requires s.status.Some? && s.status.value.graph.historySize >= 0
    ensures var r := Step(s, ProbeDelivered(s.pinger.value.id, Failed(e)), fmt);
            r.status.value.graph == History.AddPingResponse(s.status.value.graph, s.pinger.value.timeout)
  {
  }

  /** End to end: after a successful set-up, a timeout from the new pinger
      appends the `PingTimeout` setting read during that set-up. */
  lemma SetupThenTimeout(s: State, a: Attempt, fmt: Preferences.Formats)
    requires Inv(s) && s.monitor.isActive && a.created && a.started
    ensures var s1 := SetupPinger(s, a);
            var r := Step(s1, ProbeDelivered(s.nextPinger, Failed(RequestTimeout)), fmt);
            s1.status.value.graph.historySize >= 0 ==>
              r.status.value.graph == History.AddPingResponse(s1.status.value.graph, ReadConfig(s.store).timeout)
  {
    var s1 := SetupPinger(s, a);
    if s1.status.value.graph.historySize >= 0 {
      TimeoutRecordsPingerTimeout(s1, RequestTimeout, fmt);
    }
  }

  /** Any run of timeouts from a pinger that was started keeps the session:
      the same pinger, the same running set and the same pending retry, and
      the history is the old one with that pinger's timeout appended once per
      timeout. */
  lemma {:induction false} TimeoutsKeepSession(s: State, from: nat, n: nat, fmt: Preferences.Formats)
    requires from in s.started
    requires s.status.Some? && s.status.value.graph.historySize >= 0
    ensures var r := Run(s, Timeouts(from, n), fmt);
            && r.pinger == s.pinger && r.running == s.running && r.retry == s.retry && r.started == s.started
            && r.status.Some?
            && r.status.value.graph == History.AddAll(s.status.value.graph, Repeat(s.started[from], n))
    decreases n
  {
    if n > 0 {
      var timeout := s.started[from];
      var e := ProbeDelivered(from, Failed(RequestTimeout));
      var s1 := Step(s, e, fmt);
      assert Timeouts(from, n)[0] == e && Timeouts(from, n)[1..] == Timeouts(from, n - 1);
      assert s1.status.value.graph == History.AddPingResponse(s.status.value.graph, timeout);
      TimeoutsKeepSession(s1, from, n - 1, fmt);
      assert Repeat(timeout, n)[0] == timeout && Repeat(timeout, n)[1..] == Repeat(timeout, n - 1);
    }
  }

  /** Three timeouts in a row from the running pinger leave the session and
      the graph's configuration as they were and append that pinger's
      timeout three times to the history (older entries evicted from the
      front as needed). */
  lemma ThreeTimeouts(s: State, fmt: Preferences.Formats)
    requires Inv(s) && s.pinger.Some? && s.pinger.value.id in s.running
    requires s.status.Some? && 0 <= |s.status.value.graph.history| <= s.status.value.graph.historySize
    ensures var r, g, timeout := Run(s, Timeouts(s.pinger.value.id, 3), fmt), s.status.value.graph, s.pinger.value.timeout;
            && r.pinger == s.pinger && r.running == s.running && r.retry == s.retry && r.status.Some?
            && r.status.value.graph.historySize == g.historySize && r.status.value.graph.barWidth == g.barWidth
            && r.status.value.graph.pingerActive == g.pingerActive
            && Samples(r) == History.Newest(Samples(s) + [timeout, timeout, timeout], g.historySize)
  {
    var id, timeout, g := s.pinger.value.id, s.pinger.value.timeout, s.status.value.graph;
    assert s.started[id] == timeout;
    var xs := Repeat(timeout, 3);
    assert xs == [timeout, timeout, timeout];
    TimeoutsKeepSession(s, id, 3, fmt);
    var r := Run(s, Timeouts(id, 3), fmt);
    assert r.status.value.graph == History.AddAll(g, xs);
    History.AddAllKeepsShape(g, xs);
    History.AddAllKeepsNewest(g, xs);
    assert Samples(r) == r.status.value.graph.history;
  }
}
